=== FILE: README.md ===
# Tumblr post model

A Dafny model of the post layer of the `tumblr` Ruby client library
(`lib/tumblr/post.rb`): how `Post.find`, `create`, `update` and `destroy`
shape their request parameters, how a `posts` element of an API response
becomes a `Posts` collection of typed posts, how every post variant is
read from and written back to an XML element, and how photo and video
captions split into a title and a body.

The XML is an abstract element tree (`Xml.Element`: name, attribute map,
optional text, children), with REXML's lookups as functions: the first
child with a name (`elt.elements[name]`) and the children with a name in
document order (`elt.elements.each(name)`). Ruby's nil is `Option.None`;
the exceptions Ruby raises on nil (a required child missing, an unknown
`type`, an unknown timezone, a nil caption) are `Result.Failure` values.

Modules, in dependency order:

- `Wrappers`, `Errors` (wrappers.dfy): Option, Result and the error kinds.
- `RubyInt` (ruby_int.dfy): `String#to_i` (leading blanks, one sign, the
  `0d` prefix, digits with single underscores; 0 when nothing parses) and
  `Integer#to_s`, and the fact that `to_i` inverts `to_s`.
- `OrderedHash` (ordered_hash.dfy): a Ruby Hash as an insertion-ordered list
  of unique keys; `hash[k] = v` on an existing key replaces the value in
  place.
- `Xml` (xml.dfy): the element tree and the REXML operations above.
- `Caption` (caption.dfy): `split("\n", 2)` and the title/body rule.
- `PostModel` (post.dfy): the shared `Base` record and the six variants
  `Regular`, `Quote`, `Photo`, `Link`, `Conversation`, `Video`; reading
  (`initialize`), dispatch on `type`, writing (`to_xml`), round trips.
- `PostCollection` (collection.dfy): `Posts#initialize` and `Posts#to_xml`.
- `Blog` (tumblelog.dfy): `Tumblelog#initialize` and `Tumblelog#to_xml`.
- `Params` (params.dfy): Ruby's splat conventions, `process_options` and the
  four finder parameter maps.
- `Finder` (finder.dfy): `Post.find`'s dispatch and the answer it builds.

Behaviour of `post.rb` worth knowing before reading the model:

- `find` answers `posts[0]` for every finder but `:all` (post.rb:25), so an
  empty collection answers nil (`Finder.Answer` gives `One(None)`).
- `process_options` sets `:post_id` to nil after copying it to `'post-id'`
  (post.rb:95-96); the key stays in the hash.
- `max-width` and `total` are read with `to_i` (post.rb:146, 236), so a
  missing or non-numeric value reads as 0.
- An unknown post `type` makes the `case` at post.rb:151-157 yield nil, and
  `nil.new` raises; the model's `UnknownPostType` carries the raw attribute.
- `Link#initialize` stores the `link-text` text in `@text` (post.rb:273);
  the declared `name` reader is never set.
- Without a User, `process_options` writes the `:post_id` fix into the
  caller's own options Hash (post.rb:85, 95-96); `Params.CallerOptionsAfter`
  gives that Hash after the call.

## Model

| member | source | states |
|---|---|---|
| `RubyInt.ToIOfIntToS` | lib/tumblr/post.rb:236-247 | an Integer written as an attribute value (`to_s`) reads back as the same Integer (`to_i`), negative values included |
| `OrderedHash.Put` | lib/tumblr/post.rb:236 | storing under a key makes it map to the new value, leaves every other key's value alone, adds the key to the key set and keeps keys unique; a new key is appended, and an existing key keeps its position with only its value replaced |
| `Xml.SetAttr` | lib/tumblr/post.rb:112-115 | assigning an attribute makes it read back as the assigned value, assigning nil removes it, and no other attribute changes |
| `Xml.RequiredText` | lib/tumblr/post.rb:208 | reading the text of a required child fails with `MissingElement(name)` exactly when no such child exists, and otherwise gives the first such child's text |
| `Caption.TitleBodySplit` | lib/tumblr/post.rb:253-265 | a caption has a title exactly when it contains a newline and the text before the first newline is shorter than 90 characters; then the title has no newline and title + newline + body is the caption; otherwise the body is the whole caption |
| `PostModel.CaptionTitle` | lib/tumblr/post.rb:253-261 | `Photo#title`/`Video#title` fail exactly when the caption is nil; a title found has no newline and rebuilds the caption with the body |
| `PostModel.CaptionBody` | lib/tumblr/post.rb:263-265 | `Photo#body`/`Video#body` fail exactly when the caption is nil; the body is the whole caption when there is no title, and the text after the title's newline otherwise |
| `PostModel.PhotoVideoCaptionsAgree` | lib/tumblr/post.rb:346-358 | a video and a photo with the same caption have the same title and the same body |
| `PostModel.ParseBase` | lib/tumblr/post.rb:102-108 | reading the shared fields fails with `MissingDate` exactly when the `date` attribute is missing; id and url are the `id` and `url` attributes, the bookmarklet flag is set exactly when the attribute is the text `true`, and the blog timezone is recorded |
| `PostModel.ParseBaseOfToElement` | lib/tumblr/post.rb:102-117 | id, url, date and bookmarklet flag written by `to_xml` read back unchanged, whatever variant wrote them |
| `PostModel.ToElement` | lib/tumblr/post.rb:110-117 | every written post is a `post` element carrying its variant's `type`, and `bookmarklet="true"` only when the flag is set |
| `PostModel.ParseRegular` | lib/tumblr/post.rb:176-184 | a regular post fails only on a missing date, with `MissingDate`; its shared fields are those `ParseBase` reads, and its title and body are the texts of the optional `regular-title`/`regular-body` children |
| `PostModel.RoundTripRegular` | lib/tumblr/post.rb:176-196 | reading a written regular post recovers its optional title and body |
| `PostModel.ParseQuote` | lib/tumblr/post.rb:206-212 | a quote fails exactly when the date or the `quote-text` child is missing; a missing date gives `MissingDate` before any child is looked up, otherwise the error is `MissingElement("quote-text")`; it carries the shared fields, the `quote-text` text and the optional `quote-source` text |
| `PostModel.RoundTripQuote` | lib/tumblr/post.rb:206-223 | reading a written quote recovers its text and optional source |
| `PostModel.ParsePhoto` | lib/tumblr/post.rb:229-238 | a photo fails only on a missing date, with `MissingDate`; it carries the shared fields, the optional `photo-caption` text, and the urls hash built by `ParseUrls` from the `photo-url` children, whose widths are unique and at most one per child |
| `PostModel.ParseUrls` | lib/tumblr/post.rb:234-237 | the urls hash built from the `photo-url` children has unique keys and no more entries than children |
| `PostModel.ParseUrlsLastWins` | lib/tumblr/post.rb:234-237 | the value stored under a width is the text of the last `photo-url` child with that width, and a width no child has is absent |
| `PostModel.ParseUrlsOfUrlElements` | lib/tumblr/post.rb:234-249 | writing one `photo-url` per hash entry and reading them back gives the same hash, order included |
| `PostModel.RoundTripPhoto` | lib/tumblr/post.rb:229-251 | reading a written photo recovers its caption and urls |
| `PostModel.ParseLink` | lib/tumblr/post.rb:271-276 | a link fails exactly when the date or the `link-url` child is missing; a missing date gives `MissingDate` before any child is looked up, otherwise the error is `MissingElement("link-url")`; it carries the shared fields with the url replaced by the `link-url` text, and the `link-text` and `link-description` texts |
| `PostModel.RoundTripLink` | lib/tumblr/post.rb:271-288 | reading a written link recovers its url, text and description |
| `PostModel.ParseLines` | lib/tumblr/post.rb:300-305 | one line per `conversation-line` child, in document order, each built from that child's name, label and text |
| `PostModel.ParseConversation` | lib/tumblr/post.rb:294-306 | a conversation fails exactly when the date or the `conversation-text` child is missing; a missing date gives `MissingDate` before any child is looked up, otherwise the error is `MissingElement("conversation-text")`; it carries the shared fields, the `conversation-text` text, and the lines `ParseLines` builds from the `conversation-line` children in order |
| `PostModel.ParseLinesOfLineElements` | lib/tumblr/post.rb:308-319 | writing the lines and reading them back gives the same triples in the same order |
| `PostModel.RoundTripConversation` | lib/tumblr/post.rb:294-321 | reading a written conversation recovers its text and its lines in order |
| `PostModel.ParseVideo` | lib/tumblr/post.rb:327-332 | a video fails exactly when the date or any of the caption, source and player children is missing; a missing date gives `MissingDate` before any child is looked up, and otherwise the first missing child in the order caption, source, player is the one reported; a built video carries the shared fields and the three children's texts |
| `PostModel.RoundTripVideo` | lib/tumblr/post.rb:327-344 | reading a written video recovers caption, source and player |
| `PostModel.ParsePost` | lib/tumblr/post.rb:151-158 | the element fails with `UnknownPostType(raw)` exactly when its `type` is missing or not one of the six names; each of the six names hands the element to that variant's reader, whose result (errors included) is the answer; a built post's `type` names its variant, it carries the given timezone and its photo widths are unique |
| `PostModel.RoundTrip` | lib/tumblr/post.rb:102-344 | for every variant, reading back what `to_xml` wrote gives the same post |
| `PostCollection.ParseAll` | lib/tumblr/post.rb:150-159 | all posts are built or none: success exactly when every child builds, then one post per child in order; otherwise the error of the first child that fails |
| `PostCollection.ParsePosts` | lib/tumblr/post.rb:145-160 | the collection builds exactly when every direct `post` child does; it then has one post per child in document order; `total` is `to_i` of the attribute (0 when absent), `start` is `to_i` of its attribute and set exactly when that attribute is present, and the type filter is the `type` attribute |
| `PostCollection.UnknownTypeFailsCollection` | lib/tumblr/post.rb:151-158 | a `post` child with an unknown or missing `type` fails the whole collection, with `UnknownPostType` of that value when the children before it build |
| `PostCollection.ParseAllOfPostElements` | lib/tumblr/post.rb:162-168 | the elements written for a list of posts read back as that list |
| `PostCollection.AttributesOfToElement` | lib/tumblr/post.rb:162-165 | a written collection reads back its total and type and carries no `start` attribute |
| `PostCollection.ToElement` | lib/tumblr/post.rb:162-170 | a written collection is a `posts` element with one `post` child per post, in order, each carrying its post's `type` |
| `PostCollection.RoundTrip` | lib/tumblr/post.rb:145-170 | reading back a written collection recovers total, type and posts in order, while `start` reads back absent |
| `Blog.ParseTumblelog` | lib/tumblr/post.rb:123-129 | reading the blog fails with `InvalidTimezone` exactly when the `timezone` attribute is missing or unknown to the timezone database; otherwise it keeps the named zone, the `name`, `cname` and `title` attributes and the element's text as the description |
| `Blog.ToElement` | lib/tumblr/post.rb:131-139 | a written blog is a `tumblelog` element whose `timezone` attribute is the zone's name, whose `name`, `cname` and `title` attributes are the blog's (absent when nil), and whose text is the description |
| `Blog.RoundTrip` | lib/tumblr/post.rb:131-139 | a written blog with a known zone reads back unchanged |
| `Params.ExtractOptions` | lib/tumblr/post.rb:85 | a trailing Hash argument becomes the options and the remaining arguments are the positional ones; without one the options are empty |
| `Params.MergeUser` | lib/tumblr/post.rb:87-92 | a User sets `:email` and `:password` from its fields, overriding any existing values, and every other key is unchanged; anything else leaves the options as they were |
| `Params.RenamePostId` | lib/tumblr/post.rb:94-97 | when `:post_id` is set, `'post-id'` gets its value and `:post_id` stays present holding nil; no other key changes; when it is not set the options are unchanged |
| `Params.ProcessOptions` | lib/tumblr/post.rb:84-100 | a User as first positional argument supplies email and password; a set `:post_id` moves to `'post-id'`; without a User, `:email` and `:password` pass through too; every other option passes through |
| `Params.CallerOptionsAfter` | lib/tumblr/post.rb:85-97 | the caller's trailing options Hash after the call: without a User it holds exactly the returned options, `:post_id` fix included; with a User it is untouched |
| `Params.FirstParams` | lib/tumblr/post.rb:30-32 | the first-post request has start 0 and num 1, overriding the caller's, and keeps all other options |
| `Params.LastParams` | lib/tumblr/post.rb:35-38 | the last-post request has start total - 1 and num 1 and keeps all other options |
| `Params.EveryParams` | lib/tumblr/post.rb:41-43 | the all-posts request has num 50 and keeps all other options |
| `Params.IdParams` | lib/tumblr/post.rb:46-48 | the by-id request carries the given id, even nil, and keeps all other options |
| `Finder.LastRequestParams` | lib/tumblr/post.rb:35-38 | the last-post request asks for one post at the count collection's total less one, keeping all other options |
| `Finder.RequestParams` | lib/tumblr/post.rb:6-21 | a User in second position supplies email and password; `:first`, `:last` and `:all` select their parameter maps, and any other first argument is sent as the id |
| `Finder.ArrayAt` | lib/tumblr/post.rb:25 | indexing the collection fails exactly for a non-Integer index; an index from 0 up answers that element, a negative one counts from the end, and one past either end answers nil |
| `Finder.Answer` | lib/tumblr/post.rb:23-26 | the blog is read first and its timezone passed to the collection; errors of either propagate; `:all` answers the whole collection and every other finder answers element 0, or nil when the collection is empty |
| `Finder.CountTotalAsWritten` | lib/tumblr/post.rb:36 | the first index of the count step as written, `all['tumblr']`, fails for every collection |
| `Finder.CountTotalAsWrittenFails` | lib/tumblr/post.rb:36 | the count step of `find_last` as written fails with a type error for every collection |

## Left out

- Dates: `Time.parse` of the `date` attribute with the zone abbreviation, and
  `strftime` when writing, need a time library and timezone data. The date
  is kept as the attribute's text, so its round trip is the identity, and an
  unparseable date is not an error here.
- Timezone lookup: the timezone database is a parameter, the set of zone
  identifiers it knows; a zone's name is its identifier.
- Markup: parsing raw response text into a tree, and the `//tumblelog` and
  `//posts` searches of `find`, are not modelled; `Finder.Answer` takes the
  two elements.
- Transport: `Tumblr::Request.read`, `write` and `delete`, and the status
  errors of `lib/tumblr.rb`, are I/O. `create`, `update` and `destroy` send
  exactly `Params.ProcessOptions` of their arguments.
- The count request of `find_last` (a call of `all` without options) is I/O;
  its result is the `count` parameter of `Finder.RequestParams`. The `:last`
  branch of `Finder.RequestParams` takes the corrected step
  `Finder.LastRequestParams`; as written, `:last` raises at post.rb:36
  (`Finder.CountTotalAsWritten`, under Findings).
- Conversation titles: `Conversation#initialize` stores the
  `conversation-title` element object rather than its text, so there is no
  text to model; the model neither reads nor writes that child.
- `Regular#to_s` and the unset `Link#name` reader compute nothing.
- lib/tumblr/user.rb is not part of this model: a User is its email and
  password strings.
- Ruby values are limited to nil, booleans, integers, strings, symbols,
  users and hashes; hash keys to symbols and strings.

## Findings

| source | as written | input that shows it | evidently intended | confidence | as-written member | corrected member |
|---|---|---|---|---|---|---|
| lib/tumblr/post.rb:36 | `all['tumblr']['posts']['total']` indexes the `Posts` collection that `all` returns, an Array, with a String, which raises a type error | `Post.find(:last)` on any blog | read the `total` the count collection reports and request one post at `total - 1` | high; not executed | `Finder.CountTotalAsWritten` | `Finder.LastRequestParams` |

=== FILE: caption.dfy ===
/** The title/body split of a photo or video caption: the first line is a
    title when more text follows it and it is shorter than 90 characters;
    the body is what follows the first newline when there is a title, and
    the whole caption otherwise. */
module Caption {
  import opened Wrappers

  /** A title must be strictly shorter than this many characters. */
  const TitleLimit := 90

  /** `i` is the position of the first newline of `s`. */
  predicate FirstNewlineAt(s: string, i: int) {
    0 <= i < |s| && s[i] == '\n' && '\n' !in s[..i]
  }

  function NewlineIndex(s: string): (r: Option<nat>)
    ensures r.None? <==> '\n' !in s
    ensures r.Some? ==> FirstNewlineAt(s, r.value)
  {
    if s == [] then None
    else if s[0] == '\n' then Some(0)
    else match NewlineIndex(s[1..])
      case None => None
      case Some(i) =>
        assert s[..i + 1] == [s[0]] + s[1..][..i];
        Some(i + 1)
  }

  /** `s.split("\n", 2)`: the empty string has no parts; otherwise the text
      before the first newline and, when there is a newline, all the text
      after it (possibly empty). */
  function Split2(s: string): (parts: seq<string>)
    ensures |parts| <= 2
  {
    if s == [] then []
    else match NewlineIndex(s)
      case None => [s]
      case Some(i) => [s[..i], s[i + 1..]]
  }

  /** `Photo#title` / `Video#title` on a caption that is not nil. */
  function Title(caption: string): Option<string> {
    var parts := Split2(caption);
    if |parts| == 2 && |parts[0]| < TitleLimit then Some(parts[0]) else None
  }

  /** `Photo#body` / `Video#body` on a caption that is not nil. */
  function Body(caption: string): string {
    var parts := Split2(caption);
    if Title(caption).Some? then parts[1] else caption
  }

  /** A title exists exactly when the caption has a newline whose preceding
      first line is under the limit; then title, newline and body rebuild
      the caption, and otherwise the body is the whole caption. */
  lemma TitleBodySplit(caption: string)
    ensures Title(caption).Some? <==> exists i :: FirstNewlineAt(caption, i) && i < TitleLimit
    ensures Title(caption).Some? ==>
      '\n' !in Title(caption).value && Title(caption).value + "\n" + Body(caption) == caption
    ensures Title(caption).None? ==> Body(caption) == caption
  {
  }
}

=== FILE: collection.dfy ===
/** `Posts`: the collection a `posts` element holds, read by dispatching
    every `post` child on its `type`, and written back with `to_xml`. */
module PostCollection {
  import opened Wrappers
  import opened Errors
  import opened Xml
  import RubyInt
  import PostModel

  /** The posts in document order with the element's paging attributes;
      `start` is only set when the attribute is present. */
  datatype Posts = Posts(total: int, start: Option<int>, typeFilter: Option<string>, posts: seq<PostModel.Post>)

  /** Builds every post in order; the first post that cannot be built fails
      the whole collection with its error. */
  function ParseAll(es: seq<Element>, tz: string): (r: Result<seq<PostModel.Post>, Error>)
    ensures r.Success? <==> forall i :: 0 <= i < |es| ==> PostModel.ParsePost(es[i], tz).Success?
    ensures r.Success? ==> |r.value| == |es|
    ensures r.Success? ==> forall i :: 0 <= i < |es| ==> PostModel.ParsePost(es[i], tz) == Success(r.value[i])
    ensures r.Failure? ==>
      (exists i :: 0 <= i < |es| && PostModel.ParsePost(es[i], tz) == Failure(r.error) &&
        (forall j :: 0 <= j < i ==> PostModel.ParsePost(es[j], tz).Success?))
  {
    if es == [] then Success([])
    else
      var p :- PostModel.ParsePost(es[0], tz);
      var rest :- ParseAll(es[1..], tz);
      Success([p] + rest)
  }

  /** `Posts#initialize`: `total` reads as 0 when absent (`nil.to_i`). */
  function ParsePosts(e: Element, tz: string): (r: Result<Posts, Error>)
    ensures r.Success? <==> forall i :: 0 <= i < |ChildrenNamed(e, "post")| ==>
      PostModel.ParsePost(ChildrenNamed(e, "post")[i], tz).Success?
    ensures r.Success? ==> |r.value.posts| == |ChildrenNamed(e, "post")|
    ensures r.Success? ==> forall i :: 0 <= i < |r.value.posts| ==>
      PostModel.ParsePost(ChildrenNamed(e, "post")[i], tz) == Success(r.value.posts[i])
    ensures r.Success? ==> r.value.total == RubyInt.OptionToI(Attr(e, "total"))
    ensures r.Success? ==> (r.value.start.Some? <==> "start" in e.attrs)
    ensures r.Success? && r.value.start.Some? ==> r.value.start.value == RubyInt.ToI(e.attrs["start"])
    ensures r.Success? ==> r.value.typeFilter == Attr(e, "type")
  {
    var total := RubyInt.OptionToI(Attr(e, "total"));
    var start := if "start" in e.attrs then Some(RubyInt.ToI(e.attrs["start"])) else None;
    var posts :- ParseAll(ChildrenNamed(e, "post"), tz);
    Success(Posts(total, start, Attr(e, "type"), posts))
  }

  /** A `post` child whose `type` is not one of the six variant names fails
      the whole collection; when every earlier child could be built, the
      error names that child's `type` value. */
  lemma UnknownTypeFailsCollection(e: Element, tz: string, i: nat)
    requires i < |ChildrenNamed(e, "post")|
    requires var t := Attr(ChildrenNamed(e, "post")[i], "type"); t.None? || t.value !in PostModel.PostTypes
    ensures ParsePosts(e, tz).Failure?
    ensures (forall j :: 0 <= j < i ==> PostModel.ParsePost(ChildrenNamed(e, "post")[j], tz).Success?) ==>
      ParsePosts(e, tz) == Failure(UnknownPostType(Attr(ChildrenNamed(e, "post")[i], "type")))
  {
  }

  function PostElements(ps: seq<PostModel.Post>): (es: seq<Element>)
    ensures |es| == |ps|
  {
    seq(|ps|, i requires 0 <= i < |ps| => PostModel.ToElement(ps[i]))
  }

  function CollectionAttrs(c: Posts): map<string, string> {
    SetAttr(map["total" := RubyInt.IntToS(c.total)], "type", c.typeFilter)
  }

  /** `Posts#to_xml`: `total` and `type`, then one element per post. */
  function ToElement(c: Posts): (e: Element)
    ensures e.name == "posts" && |e.children| == |c.posts|
    ensures forall i :: 0 <= i < |c.posts| ==>
      e.children[i].name == "post" && Attr(e.children[i], "type") == Some(PostModel.TypeName(c.posts[i]))
  {
    Element("posts", CollectionAttrs(c), None, PostElements(c.posts))
  }

  lemma ParseAllOfPostElements(ps: seq<PostModel.Post>, tz: string)
    requires forall i :: 0 <= i < |ps| ==> PostModel.Valid(ps[i]) && ps[i].base.timezone == tz
    ensures ParseAll(PostElements(ps), tz) == Success(ps)
  {
    var es := PostElements(ps);
    forall i | 0 <= i < |es|
      ensures PostModel.ParsePost(es[i], tz) == Success(ps[i])
    {
      PostModel.RoundTrip(ps[i]);
    }
    var r := ParseAll(es, tz);
    assert r.Success?;
    assert |r.value| == |ps|;
    assert forall i :: 0 <= i < |ps| ==> r.value[i] == ps[i];
    assert r.value == ps;
  }

  lemma AttributesOfToElement(c: Posts)
    ensures RubyInt.OptionToI(Attr(ToElement(c), "total")) == c.total
    ensures Attr(ToElement(c), "type") == c.typeFilter
    ensures "start" !in ToElement(c).attrs
  {
    var attrs := CollectionAttrs(c);
    assert ToElement(c).attrs == attrs;
    assert Attr(ToElement(c), "type") == c.typeFilter;
    assert "total" in attrs && attrs["total"] == RubyInt.IntToS(c.total);
    assert "start" !in attrs;
    RubyInt.ToIOfIntToS(c.total);
  }

  /** Reading back a written collection recovers its total, type and posts
      in order; `start` is not written, so it reads back absent. */
  lemma RoundTrip(c: Posts, tz: string)
    requires forall i :: 0 <= i < |c.posts| ==> PostModel.Valid(c.posts[i]) && c.posts[i].base.timezone == tz
    ensures ParsePosts(ToElement(c), tz) == Success(c.(start := None))
  {
    var es := PostElements(c.posts);
    NamedAll(es, "post");
    assert ChildrenNamed(ToElement(c), "post") == es;
    ParseAllOfPostElements(c.posts, tz);
    AttributesOfToElement(c);
  }
}

=== FILE: finder.dfy ===
/** `Post.find`: the request parameters each finder sends, and the answer
    built from the response's `tumblelog` and `posts` elements. Sending the
    request and locating the two elements in the document are not part of
    this model. */
module Finder {
  import opened Wrappers
  import opened Errors
  import opened Xml
  import opened Params
  import Blog
  import PostModel
  import PostCollection

  /** What `find` returns: one post (or nil) for `:first`, `:last` and an id;
      the whole collection for `:all`. */
  datatype Found = One(post: Option<PostModel.Post>) | All(collection: PostCollection.Posts)

  /** `Array#[]` with one argument: an Integer index, negative ones counting
      from the end, answers the element or nil; anything else raises. */
  function ArrayAt<T>(xs: seq<T>, index: Value): (r: Result<Option<T>, Error>)
    ensures r.Failure? <==> !index.Int?
    ensures r.Success? && r.value.Some? ==> r.value.value in xs
    ensures index.Int? && 0 <= index.i < |xs| ==> r == Success(Some(xs[index.i]))
    ensures index.Int? && -|xs| <= index.i < 0 ==> r == Success(Some(xs[|xs| + index.i]))
    ensures index.Int? && !(-|xs| <= index.i < |xs|) ==> r == Success(None)
  {
    match index
    case Int(i) =>
      if 0 <= i < |xs| then Success(Some(xs[i]))
      else if -|xs| <= i < 0 then Success(Some(xs[|xs| + i]))
      else Success(None)
    case _ => Failure(IndexTypeError)
  }

  /** The count step of `find_last` as written: `all['tumblr']` indexes the
      collection, an Array, with a String. That first index already raises,
      so the later `['posts']['total'].to_i` is never reached. */
  function CountTotalAsWritten(all: PostCollection.Posts): (r: Result<Option<PostModel.Post>, Error>)
    ensures r.Failure?
  {
    ArrayAt(all.posts, Str("tumblr"))
  }

  /** Whatever the blog holds, the count step raises before any request for
      the last post is made. */
  lemma CountTotalAsWrittenFails(all: PostCollection.Posts)
    ensures CountTotalAsWritten(all) == Failure(IndexTypeError)
  {
  }

  /** `find_last` as intended: the offset is the collection's reported
      `total` less one. */
  function LastRequestParams(o: Options, count: PostCollection.Posts): (r: Options)
    ensures Start in r && r[Start] == Int(count.total - 1)
    ensures Num in r && r[Num] == Int(1)
    ensures AgreeOutside(r, o, {Start, Num})
  {
    LastParams(o, count.total)
  }

  /** `find`: a User in second position is expanded into the options, then
      the first positional argument selects the finder; anything other than
      `:first`, `:last` or `:all` is an id. `count` is the collection the
      count step of `:last` reads. */
  function RequestParams(args: seq<Value>, count: PostCollection.Posts): (r: Options)
    ensures var c := ExtractOptions(args);
      Nth(c.positional, 1).UserObj? ==>
        Lookup(r, Email) == Str(Nth(c.positional, 1).user.email) &&
        Lookup(r, Password) == Str(Nth(c.positional, 1).user.password)
    ensures var c := ExtractOptions(args);
      var o := MergeUser(c.options, Nth(c.positional, 1));
      match Nth(c.positional, 0)
      case Sym("first") => Lookup(r, Start) == Int(0) && Lookup(r, Num) == Int(1) && AgreeOutside(r, o, {Start, Num})
      case Sym("last") => Lookup(r, Start) == Int(count.total - 1) && Lookup(r, Num) == Int(1) && AgreeOutside(r, o, {Start, Num})
      case Sym("all") => Lookup(r, Num) == Int(PageSize) && AgreeOutside(r, o, {Num})
      case id => Id in r && r[Id] == id && AgreeOutside(r, o, {Id})
  {
    var c := ExtractOptions(args);
    var o := MergeUser(c.options, Nth(c.positional, 1));
    match Nth(c.positional, 0)
    case Sym("first") => FirstParams(o)
    case Sym("last") => LastRequestParams(o, count)
    case Sym("all") => EveryParams(o)
    case id => IdParams(id, o)
  }

  /** The answer `find` builds from a response: the blog is read first and
      its timezone handed to every post; every finder but `:all` answers
      element 0 of the collection, nil when it is empty. */
  function Answer(args: seq<Value>, blog: Element, posts: Element, zones: set<string>): (r: Result<Found, Error>)
    ensures r.Success? ==> Blog.ParseTumblelog(blog, zones).Success?
    ensures r.Success? ==>
      var c := PostCollection.ParsePosts(posts, Blog.ParseTumblelog(blog, zones).value.timezone);
      c.Success? &&
      if Nth(ExtractOptions(args).positional, 0) == Sym("all") then r.value == All(c.value)
      else r.value == One(if |c.value.posts| > 0 then Some(c.value.posts[0]) else None)
    ensures Blog.ParseTumblelog(blog, zones).Failure? ==> r == Failure(Blog.ParseTumblelog(blog, zones).error)
    ensures Blog.ParseTumblelog(blog, zones).Success? ==>
      var c := PostCollection.ParsePosts(posts, Blog.ParseTumblelog(blog, zones).value.timezone);
      c.Failure? ==> r == Failure(c.error)
  {
    var first := Nth(ExtractOptions(args).positional, 0);
    var t :- Blog.ParseTumblelog(blog, zones);
    var c :- PostCollection.ParsePosts(posts, t.timezone);
    if first != Sym("all") then
      var p := ArrayAt(c.posts, Int(0));
      Success(One(p.value))
    else Success(All(c))
  }
}

=== FILE: ordered_hash.dfy ===
/** Ruby's Hash as the library uses it: keys are unique and iteration
    follows insertion order; storing under a key that is already present
    replaces its value in place. */
module OrderedHash {
  import opened Wrappers

  type Hash<K, V> = seq<(K, V)>

  function Keys<K(==), V>(h: Hash<K, V>): set<K> {
    if h == [] then {} else {h[0].0} + Keys(h[1..])
  }

  /** No key occurs twice. */
  predicate Unique<K(==), V>(h: Hash<K, V>) {
    h == [] || (h[0].0 !in Keys(h[1..]) && Unique(h[1..]))
  }

  /** `hash[k]`, with None for a missing key. */
  function Get<K(==), V>(h: Hash<K, V>, k: K): (r: Option<V>)
    ensures r.Some? <==> k in Keys(h)
  {
    if h == [] then None else if h[0].0 == k then Some(h[0].1) else Get(h[1..], k)
  }

  /** `hash[k] = v`. */
  function Put<K(==,!new), V>(h: Hash<K, V>, k: K, v: V): (r: Hash<K, V>)
    ensures Get(r, k) == Some(v)
    ensures forall k' :: k' != k ==> Get(r, k') == Get(h, k')
    ensures Keys(r) == Keys(h) + {k}
    ensures Unique(h) ==> Unique(r)
    ensures k !in Keys(h) ==> r == h + [(k, v)]
    ensures |r| == if k in Keys(h) then |h| else |h| + 1
    ensures Unique(h) && k in Keys(h) ==>
      forall i :: 0 <= i < |h| ==> r[i] == (if h[i].0 == k then (k, v) else h[i])
  {
    if h == [] then [(k, v)]
    else if h[0].0 == k then
      var r := [(k, v)] + h[1..];
      assert Unique(h) ==> forall i :: 1 <= i < |h| ==> h[i].0 != k by {
        if Unique(h) {
          forall i | 1 <= i < |h| ensures h[i].0 != k {
            KeyAt(h[1..], i - 1);
          }
        }
      }
      r
    else
      var rest := Put(h[1..], k, v);
      assert ([h[0]] + rest)[1..] == rest;
      [h[0]] + rest
  }

  /** Every pair's key is among the hash's keys. */
  lemma {:induction false} KeyAt<K, V>(h: Hash<K, V>, i: nat)
    requires i < |h|
    ensures h[i].0 in Keys(h)
  {
    if i > 0 {
      KeyAt(h[1..], i - 1);
    }
  }

  /** Appending a pair keeps the keys unique exactly when its key is new. */
  lemma {:induction false} UniqueSnoc<K, V>(h: Hash<K, V>, k: K, v: V)
    ensures Keys(h + [(k, v)]) == Keys(h) + {k}
    ensures Unique(h + [(k, v)]) <==> Unique(h) && k !in Keys(h)
  {
    if h != [] {
      assert (h + [(k, v)])[1..] == h[1..] + [(k, v)];
      UniqueSnoc(h[1..], k, v);
    }
  }
}

=== FILE: params.dfy ===
/** Request-parameter shaping: Ruby's splat-argument conventions
    (`extract_options!`, `args.first`, `args.second`), the expansion of a
    `User` into `:email`/`:password`, the `:post_id` to `'post-id'` rewrite
    of `process_options`, and the parameter maps of the four finders. */
module Params {
  import opened Wrappers

  /** Hash keys: Ruby symbols (`:start`) and strings (`'post-id'`) differ. */
  datatype Key = SymKey(name: string) | StrKey(s: string)

  /** The credentials object: the user record's class is not part of this
      model, only its two readers. */
  datatype User = User(email: string, password: string)

  /** The Ruby values that flow through the argument lists and option
      hashes. */
  datatype Value =
    | Nil
    | Bool(b: bool)
    | Int(i: int)
    | Str(s: string)
    | Sym(name: string)
    | UserObj(user: User)
    | Hash(entries: map<Key, Value>)

  type Options = map<Key, Value>

  const Email := SymKey("email")
  const Password := SymKey("password")
  const PostId := SymKey("post_id")
  const WirePostId := StrKey("post-id")
  const Start := SymKey("start")
  const Num := SymKey("num")
  const Id := SymKey("id")

  /** The most posts one read returns. */
  const PageSize := 50

  /** Ruby truthiness: everything but nil and false. */
  predicate Truthy(v: Value) {
    v != Nil && v != Bool(false)
  }

  /** `options[k]`: nil for a missing key. */
  function Lookup(o: Options, k: Key): Value {
    if k in o then o[k] else Nil
  }

  /** `r` has the same entries as `o` at every key outside `changed`. */
  ghost predicate AgreeOutside(r: Options, o: Options, changed: set<Key>) {
    forall k :: k !in changed ==> (k in r <==> k in o) && (k in r ==> r[k] == o[k])
  }

  /** `args[i]`, nil past the end (`args.first`, `args.second`). */
  function Nth(args: seq<Value>, i: nat): Value {
    if i < |args| then args[i] else Nil
  }

  /** The positional arguments and the options hash of a splat call. */
  datatype Call = Call(positional: seq<Value>, options: Options)

  /** `args.extract_options!`: a trailing Hash is the options, and is removed
      from the positional arguments; otherwise the options are empty. */
  function ExtractOptions(args: seq<Value>): (c: Call)
    ensures |args| > 0 && args[|args| - 1].Hash? ==> c.positional + [Hash(c.options)] == args
    ensures !(|args| > 0 && args[|args| - 1].Hash?) ==> c.positional == args && c.options == map[]
  {
    if |args| > 0 && args[|args| - 1].Hash? then Call(args[..|args| - 1], args[|args| - 1].entries)
    else Call(args, map[])
  }

  /** `options.merge(:email => user.email, :password => user.password)` when
      `candidate` is a User; the options unchanged otherwise. */
  function MergeUser(o: Options, candidate: Value): (r: Options)
    ensures candidate.UserObj? ==>
      Lookup(r, Email) == Str(candidate.user.email) && Lookup(r, Password) == Str(candidate.user.password)
    ensures AgreeOutside(r, o, {Email, Password})
    ensures !candidate.UserObj? ==> r == o
  {
    if candidate.UserObj? then
      o + map[Email := Str(candidate.user.email), Password := Str(candidate.user.password)]
    else o
  }

  /** The `:post_id` fix: when `:post_id` is set, its value moves to
      `'post-id'` and `:post_id` stays as a key holding nil. */
  function RenamePostId(o: Options): (r: Options)
    ensures Truthy(Lookup(o, PostId)) ==>
      Lookup(r, WirePostId) == Lookup(o, PostId) && PostId in r && r[PostId] == Nil
    ensures AgreeOutside(r, o, {PostId, WirePostId})
    ensures !Truthy(Lookup(o, PostId)) ==> r == o
  {
    if Truthy(Lookup(o, PostId)) then o[WirePostId := o[PostId]][PostId := Nil] else o
  }

  /** `process_options`, shared by create, update and destroy: the user is
      the first positional argument. */
  function ProcessOptions(args: seq<Value>): (r: Options)
    ensures var c := ExtractOptions(args);
      Nth(c.positional, 0).UserObj? ==>
        Lookup(r, Email) == Str(Nth(c.positional, 0).user.email) &&
        Lookup(r, Password) == Str(Nth(c.positional, 0).user.password)
    ensures var o := ExtractOptions(args).options;
      Truthy(Lookup(o, PostId)) ==> Lookup(r, WirePostId) == o[PostId] && PostId in r && r[PostId] == Nil
    ensures var c := ExtractOptions(args);
      !Truthy(Lookup(c.options, PostId)) ==> AgreeOutside(r, c.options, {Email, Password})
    ensures var c := ExtractOptions(args);
      !Nth(c.positional, 0).UserObj? ==> AgreeOutside(r, c.options, {PostId, WirePostId})
    ensures AgreeOutside(r, ExtractOptions(args).options, {Email, Password, PostId, WirePostId})
  {
    var c := ExtractOptions(args);
    RenamePostId(MergeUser(c.options, Nth(c.positional, 0)))
  }

  /** The caller's own trailing Hash once `process_options` returns. Without
      a User, the options are that very Hash object, so the `:post_id` fix is
      written into it and the caller sees the returned options; with a User,
      `merge` worked on a copy and the caller's Hash is left as it was. */
  function CallerOptionsAfter(args: seq<Value>): (h: Option<Options>)
    ensures h.Some? <==> |args| > 0 && args[|args| - 1].Hash?
    ensures h.Some? && !Nth(ExtractOptions(args).positional, 0).UserObj? ==> h.value == ProcessOptions(args)
    ensures h.Some? && Nth(ExtractOptions(args).positional, 0).UserObj? ==> h.value == args[|args| - 1].entries
  {
    var c := ExtractOptions(args);
    if |args| > 0 && args[|args| - 1].Hash? then
      if Nth(c.positional, 0).UserObj? then Some(c.options) else Some(RenamePostId(c.options))
    else None
  }

  /** `find_initial`: the first post. */
  function FirstParams(o: Options): (r: Options)
    ensures Lookup(r, Start) == Int(0) && Lookup(r, Num) == Int(1)
    ensures AgreeOutside(r, o, {Start, Num})
  {
    o + map[Start := Int(0), Num := Int(1)]
  }

  /** `find_last`: one post at offset `total - 1`. */
  function LastParams(o: Options, total: int): (r: Options)
    ensures Lookup(r, Start) == Int(total - 1) && Lookup(r, Num) == Int(1)
    ensures AgreeOutside(r, o, {Start, Num})
  {
    o + map[Start := Int(total - 1), Num := Int(1)]
  }

  /** `find_every`: one page of the largest size. */
  function EveryParams(o: Options): (r: Options)
    ensures Lookup(r, Num) == Int(PageSize)
    ensures AgreeOutside(r, o, {Num})
  {
    o + map[Num := Int(PageSize)]
  }

  /** `find_from_id`: the post with the given id. */
  function IdParams(id: Value, o: Options): (r: Options)
    ensures Id in r && r[Id] == id
    ensures AgreeOutside(r, o, {Id})
  {
    o + map[Id := id]
  }
}

=== FILE: post.dfy ===
/** The post model: six variants sharing a base record, each read from a
    `post` element (`initialize`) and written back to one (`to_xml`).
    Variant-specific children follow the wire names (`regular-title`,
    `quote-text`, `photo-url`, ...). */
module PostModel {
  import opened Wrappers
  import opened Errors
  import opened Xml
  import RubyInt
  import OrderedHash
  import Caption

  /** Fields every post shares. `date` stays the wire text: time parsing and
      formatting are not modelled. `timezone` is the owning blog's zone name,
      handed to every post when it is built. */
  datatype Base = Base(id: Option<string>, url: Option<string>, date: string, bookmarklet: bool, timezone: string)

  /** One line of a conversation: speaker name, speaker label, line text. */
  datatype Line = Line(speaker: Option<string>, speakerLabel: Option<string>, text: Option<string>)

  /** A photo's image urls by integer max width, in insertion order. */
  type Urls = OrderedHash.Hash<int, Option<string>>

  /** A Link keeps its destination in `base.url`: reading a link replaces the
      post's `url` attribute with the `link-url` child's text. */
  datatype Post =
    | Regular(base: Base, title: Option<string>, body: Option<string>)
    | Quote(base: Base, text: Option<string>, source: Option<string>)
    | Photo(base: Base, caption: Option<string>, urls: Urls)
    | Link(base: Base, text: Option<string>, description: Option<string>)
    | Conversation(base: Base, text: Option<string>, lines: seq<Line>)
    | Video(base: Base, caption: Option<string>, source: Option<string>, player: Option<string>)

  /** The `type` attribute values that select a variant. */
  const PostTypes: set<string> := {"regular", "quote", "photo", "link", "video", "conversation"}

  function TypeName(p: Post): (t: string)
    ensures t in PostTypes
  {
    match p
    case Regular(_, _, _) => "regular"
    case Quote(_, _, _) => "quote"
    case Photo(_, _, _) => "photo"
    case Link(_, _, _) => "link"
    case Conversation(_, _, _) => "conversation"
    case Video(_, _, _, _) => "video"
  }

  /** The states a post read from a document can be in: a photo's widths
      are distinct. */
  predicate Valid(p: Post) {
    p.Photo? ==> OrderedHash.Unique(p.urls)
  }

  // Reading

  /** `Post#initialize`: the date is required, `bookmarklet` is set only by
      the exact text "true". */
  function ParseBase(e: Element, tz: string): (r: Result<Base, Error>)
    ensures r.Failure? <==> Attr(e, "date").None?
    ensures r.Failure? ==> r.error == MissingDate
    ensures r.Success? ==> Some(r.value.date) == Attr(e, "date") && r.value.timezone == tz
    ensures r.Success? ==> (r.value.bookmarklet <==> Attr(e, "bookmarklet") == Some("true"))
    ensures r.Success? ==> r.value.id == Attr(e, "id") && r.value.url == Attr(e, "url")
  {
    match Attr(e, "date")
    case None => Failure(MissingDate)
    case Some(d) => Success(Base(Attr(e, "id"), Attr(e, "url"), d, Attr(e, "bookmarklet") == Some("true"), tz))
  }

  /** Title and body are both optional. */
  function ParseRegular(e: Element, tz: string): (r: Result<Post, Error>)
    ensures Attr(e, "date").None? ==> r == Failure(MissingDate)
    ensures r.Failure? <==> Attr(e, "date").None?
    ensures r.Success? ==>
      r.value.Regular? && r.value.title == OptionalText(e, "regular-title") && r.value.body == OptionalText(e, "regular-body")
    ensures r.Success? ==> r.value.base == ParseBase(e, tz).value
  {
    var b :- ParseBase(e, tz);
    Success(Regular(b, OptionalText(e, "regular-title"), OptionalText(e, "regular-body")))
  }

  /** The `quote-text` child is required, the source optional. */
  function ParseQuote(e: Element, tz: string): (r: Result<Post, Error>)
    ensures Attr(e, "date").None? ==> r == Failure(MissingDate)
    ensures r.Failure? <==> Attr(e, "date").None? || FirstChild(e, "quote-text").None?
    ensures r.Failure? && Attr(e, "date").Some? ==> r.error == MissingElement("quote-text")
    ensures r.Success? ==> r.value.Quote? && r.value.text == OptionalText(e, "quote-text")
    ensures r.Success? ==> r.value.source == OptionalText(e, "quote-source")
    ensures r.Success? ==> r.value.base == ParseBase(e, tz).value
  {
    var b :- ParseBase(e, tz);
    var text :- RequiredText(e, "quote-text");
    Success(Quote(b, text, OptionalText(e, "quote-source")))
  }

  /** The integer key of a `photo-url` element. */
  function Width(e: Element): int {
    RubyInt.OptionToI(Attr(e, "max-width"))
  }

  /** The urls hash filled from the `photo-url` elements in document order. */
  function ParseUrls(es: seq<Element>): (h: Urls)
    ensures OrderedHash.Unique(h)
    ensures |h| <= |es|
  {
    if es == [] then []
    else
      var last := es[|es| - 1];
      OrderedHash.Put(ParseUrls(es[..|es| - 1]), Width(last), last.text)
  }

  /** Caption optional; any number of `photo-url` children. */
  function ParsePhoto(e: Element, tz: string): (r: Result<Post, Error>)
    ensures Attr(e, "date").None? ==> r == Failure(MissingDate)
    ensures r.Failure? <==> Attr(e, "date").None?
    ensures r.Success? ==> r.value.Photo? && OrderedHash.Unique(r.value.urls)
    ensures r.Success? ==> |r.value.urls| <= |ChildrenNamed(e, "photo-url")|
    ensures r.Success? ==> r.value.caption == OptionalText(e, "photo-caption")
    ensures r.Success? ==> r.value.urls == ParseUrls(ChildrenNamed(e, "photo-url"))
    ensures r.Success? ==> r.value.base == ParseBase(e, tz).value
  {
    var b :- ParseBase(e, tz);
    Success(Photo(b, OptionalText(e, "photo-caption"), ParseUrls(ChildrenNamed(e, "photo-url"))))
  }

  /** The `link-url` child is required, and its text replaces the post's
      `url` attribute. */
  function ParseLink(e: Element, tz: string): (r: Result<Post, Error>)
    ensures Attr(e, "date").None? ==> r == Failure(MissingDate)
    ensures r.Failure? <==> Attr(e, "date").None? || FirstChild(e, "link-url").None?
    ensures r.Failure? && Attr(e, "date").Some? ==> r.error == MissingElement("link-url")
    ensures r.Success? ==> r.value.Link? && r.value.base.url == OptionalText(e, "link-url")
    ensures r.Success? ==> r.value.text == OptionalText(e, "link-text")
    ensures r.Success? ==> r.value.description == OptionalText(e, "link-description")
    ensures r.Success? ==> r.value.base == ParseBase(e, tz).value.(url := OptionalText(e, "link-url"))
  {
    var b :- ParseBase(e, tz);
    var text := OptionalText(e, "link-text");
    var url :- RequiredText(e, "link-url");
    Success(Link(b.(url := url), text, OptionalText(e, "link-description")))
  }

  function ParseLine(e: Element): Line {
    Line(Attr(e, "name"), Attr(e, "label"), e.text)
  }

  function ParseLines(es: seq<Element>): (ls: seq<Line>)
    ensures |ls| == |es|
    ensures forall i :: 0 <= i < |es| ==> ls[i] == ParseLine(es[i])
  {
    seq(|es|, i requires 0 <= i < |es| => ParseLine(es[i]))
  }

  /** The `conversation-text` child is required; lines keep document order. */
  function ParseConversation(e: Element, tz: string): (r: Result<Post, Error>)
    ensures Attr(e, "date").None? ==> r == Failure(MissingDate)
    ensures r.Failure? <==> Attr(e, "date").None? || FirstChild(e, "conversation-text").None?
    ensures r.Failure? && Attr(e, "date").Some? ==> r.error == MissingElement("conversation-text")
    ensures r.Success? ==> r.value.Conversation?
    ensures r.Success? ==> r.value.text == OptionalText(e, "conversation-text")
    ensures r.Success? ==> r.value.lines == ParseLines(ChildrenNamed(e, "conversation-line"))
    ensures r.Success? ==> r.value.base == ParseBase(e, tz).value
  {
    var b :- ParseBase(e, tz);
    var text :- RequiredText(e, "conversation-text");
    Success(Conversation(b, text, ParseLines(ChildrenNamed(e, "conversation-line"))))
  }

  /** Caption, source and player children are all required, looked up in
      that order. */
  function ParseVideo(e: Element, tz: string): (r: Result<Post, Error>)
    ensures Attr(e, "date").None? ==> r == Failure(MissingDate)
    ensures r.Failure? <==>
      (Attr(e, "date").None? || FirstChild(e, "video-caption").None? ||
       FirstChild(e, "video-source").None? || FirstChild(e, "video-player").None?)
    ensures r.Failure? && Attr(e, "date").Some? && FirstChild(e, "video-caption").None? ==>
      r.error == MissingElement("video-caption")
    ensures Attr(e, "date").Some? && FirstChild(e, "video-caption").Some? && FirstChild(e, "video-source").None? ==>
      r == Failure(MissingElement("video-source"))
    ensures (Attr(e, "date").Some? && FirstChild(e, "video-caption").Some? && FirstChild(e, "video-source").Some? &&
             FirstChild(e, "video-player").None?) ==> r == Failure(MissingElement("video-player"))
    ensures r.Success? ==>
      r.value.Video? && r.value.caption == OptionalText(e, "video-caption") &&
      r.value.source == OptionalText(e, "video-source") && r.value.player == OptionalText(e, "video-player")
    ensures r.Success? ==> r.value.base == ParseBase(e, tz).value
  {
    var b :- ParseBase(e, tz);
    var caption :- RequiredText(e, "video-caption");
    var source :- RequiredText(e, "video-source");
    var player :- RequiredText(e, "video-player");
    Success(Video(b, caption, source, player))
  }

  /** Builds the variant named by the element's `type` attribute. */
  function ParsePost(e: Element, tz: string): (r: Result<Post, Error>)
    ensures r.Failure? && r.error.UnknownPostType? <==> Attr(e, "type").None? || Attr(e, "type").value !in PostTypes
    ensures r.Failure? && r.error.UnknownPostType? ==> r.error.raw == Attr(e, "type")
    ensures r.Success? ==> Attr(e, "type") == Some(TypeName(r.value))
    ensures r.Success? ==> r.value.base.timezone == tz && Valid(r.value)
    ensures Attr(e, "type") == Some("regular") ==> r == ParseRegular(e, tz)
    ensures Attr(e, "type") == Some("quote") ==> r == ParseQuote(e, tz)
    ensures Attr(e, "type") == Some("photo") ==> r == ParsePhoto(e, tz)
    ensures Attr(e, "type") == Some("link") ==> r == ParseLink(e, tz)
    ensures Attr(e, "type") == Some("video") ==> r == ParseVideo(e, tz)
    ensures Attr(e, "type") == Some("conversation") ==> r == ParseConversation(e, tz)
  {
    var t := Attr(e, "type");
    if t == Some("regular") then ParseRegular(e, tz)
    else if t == Some("quote") then ParseQuote(e, tz)
    else if t == Some("photo") then ParsePhoto(e, tz)
    else if t == Some("link") then ParseLink(e, tz)
    else if t == Some("video") then ParseVideo(e, tz)
    else if t == Some("conversation") then ParseConversation(e, tz)
    else Failure(UnknownPostType(t))
  }

  // Writing

  function BaseElement(b: Base): Element {
    var attrs := SetAttr(map[], "id", b.id)["date" := b.date];
    var attrs := if b.bookmarklet then attrs["bookmarklet" := "true"] else attrs;
    Element("post", SetAttr(attrs, "url", b.url), None, [])
  }

  /** A child added only when the field is set (`if @field`). */
  function OptionalChild(name: string, text: Option<string>): seq<Element> {
    if text.Some? then [Leaf(name, map[], text)] else []
  }

  function UrlElement(width: int, url: Option<string>): Element {
    Leaf("photo-url", map["max-width" := RubyInt.IntToS(width)], url)
  }

  function UrlElements(urls: Urls): (es: seq<Element>)
    ensures |es| == |urls|
  {
    seq(|urls|, i requires 0 <= i < |urls| => UrlElement(urls[i].0, urls[i].1))
  }

  function LineElement(l: Line): Element {
    Leaf("conversation-line", SetAttr(SetAttr(map[], "name", l.speaker), "label", l.speakerLabel), l.text)
  }

  function LineElements(lines: seq<Line>): (es: seq<Element>)
    ensures |es| == |lines|
  {
    seq(|lines|, i requires 0 <= i < |lines| => LineElement(lines[i]))
  }

  function VariantChildren(p: Post): seq<Element> {
    match p
    case Regular(_, title, body) =>
      OptionalChild("regular-title", title) + OptionalChild("regular-body", body)
    case Quote(_, text, source) =>
      [Leaf("quote-text", map[], text)] + OptionalChild("quote-source", source)
    case Photo(_, caption, urls) =>
      OptionalChild("photo-caption", caption) + UrlElements(urls)
    case Link(b, text, description) =>
      [Leaf("link-text", map[], text), Leaf("link-url", map[], b.url), Leaf("link-description", map[], description)]
    case Conversation(_, text, lines) =>
      [Leaf("conversation-text", map[], text)] + LineElements(lines)
    case Video(_, caption, source, player) =>
      [Leaf("video-caption", map[], caption), Leaf("video-player", map[], player), Leaf("video-source", map[], source)]
  }

  /** `to_xml` of every variant: the shared attributes, the `type`
      discriminator, then the variant's children. */
  function ToElement(p: Post): (e: Element)
    ensures e.name == "post"
    ensures Attr(e, "type") == Some(TypeName(p))
    ensures Attr(e, "bookmarklet") == (if p.base.bookmarklet then Some("true") else None)
  {
    var base := BaseElement(p.base);
    Element("post", base.attrs["type" := TypeName(p)], None, VariantChildren(p))
  }

  // Photo and Video captions

  /** `Photo#title` and `Video#title`: fails when the caption is nil. */
  function CaptionTitle(p: Post): (r: Result<Option<string>, Error>)
    requires p.Photo? || p.Video?
    ensures r.Failure? <==> p.caption.None?
    ensures r.Success? && r.value.Some? ==>
      '\n' !in r.value.value && r.value.value + "\n" + Caption.Body(p.caption.value) == p.caption.value
    ensures r.Success? && r.value.None? ==> Caption.Body(p.caption.value) == p.caption.value
  {
    match p.caption
    case None => Failure(NilCaption)
    case Some(c) =>
      Caption.TitleBodySplit(c);
      Success(Caption.Title(c))
  }

  /** `Photo#body` and `Video#body`: fails when the caption is nil. */
  function CaptionBody(p: Post): (r: Result<string, Error>)
    requires p.Photo? || p.Video?
    ensures r.Failure? <==> p.caption.None?
    ensures r.Success? && CaptionTitle(p).value.None? ==> r.value == p.caption.value
    ensures r.Success? && CaptionTitle(p).value.Some? ==>
      CaptionTitle(p).value.value + "\n" + r.value == p.caption.value
  {
    match p.caption
    case None => Failure(NilCaption)
    case Some(c) =>
      Caption.TitleBodySplit(c);
      Success(Caption.Body(c))
  }

  // Round trips

  /** Every later `photo-url` element overwrites an earlier one with the
      same width: the text stored under `k` is the text of the last element
      whose width is `k`. */
  function LastTextForWidth(es: seq<Element>, k: int): Option<Option<string>> {
    if es == [] then None
    else if Width(es[|es| - 1]) == k then Some(es[|es| - 1].text)
    else LastTextForWidth(es[..|es| - 1], k)
  }

  lemma {:induction false} ParseUrlsLastWins(es: seq<Element>, k: int)
    ensures OrderedHash.Get(ParseUrls(es), k) == LastTextForWidth(es, k)
  {
    if es != [] {
      ParseUrlsLastWins(es[..|es| - 1], k);
    }
  }

  lemma {:induction false} ParseUrlsOfUrlElements(urls: Urls)
    requires OrderedHash.Unique(urls)
    ensures ParseUrls(UrlElements(urls)) == urls
  {
    if urls != [] {
      var n := |urls|;
      var es := UrlElements(urls);
      var (k, v) := urls[n - 1];
      assert es[..n - 1] == UrlElements(urls[..n - 1]);
      assert urls == urls[..n - 1] + [(k, v)];
      OrderedHash.UniqueSnoc(urls[..n - 1], k, v);
      ParseUrlsOfUrlElements(urls[..n - 1]);
      RubyInt.ToIOfIntToS(k);
      assert Width(es[n - 1]) == k;
    }
  }

  lemma ParseLinesOfLineElements(lines: seq<Line>)
    ensures ParseLines(LineElements(lines)) == lines
  {
  }

  /** The shared attributes read back whatever the variant added. */
  lemma ParseBaseOfToElement(p: Post)
    ensures ParseBase(ToElement(p), p.base.timezone) == Success(p.base)
  {
  }

  /** An optional child written with `OptionalChild` reads back as the
      field it was written from. */
  lemma OptionalTextOfOptionalChild(e: Element, before: seq<Element>, name: string, text: Option<string>, after: seq<Element>)
    requires e.children == before + OptionalChild(name, text) + after
    requires forall j :: 0 <= j < |before| ==> before[j].name != name
    requires forall j :: 0 <= j < |after| ==> after[j].name != name
    ensures OptionalText(e, name) == text
  {
    if text.Some? {
      FirstNamedAt(e.children, name, |before|);
    } else {
      NamedNone(e.children, name);
    }
  }

  lemma RoundTripRegular(p: Post)
    requires p.Regular?
    ensures ParseRegular(ToElement(p), p.base.timezone) == Success(p)
    ensures ParsePost(ToElement(p), p.base.timezone) == Success(p)
  {
    ParseBaseOfToElement(p);
    var e := ToElement(p);
    var t := OptionalChild("regular-title", p.title);
    var d := OptionalChild("regular-body", p.body);
    assert e.children == [] + t + d;
    OptionalTextOfOptionalChild(e, [], "regular-title", p.title, d);
    assert e.children == t + d + [];
    OptionalTextOfOptionalChild(e, t, "regular-body", p.body, []);
  }

  lemma RoundTripQuote(p: Post)
    requires p.Quote?
    ensures ParseQuote(ToElement(p), p.base.timezone) == Success(p)
    ensures ParsePost(ToElement(p), p.base.timezone) == Success(p)
  {
    ParseBaseOfToElement(p);
    var e := ToElement(p);
    var head := [Leaf("quote-text", map[], p.text)];
    FirstNamedAt(e.children, "quote-text", 0);
    assert e.children == head + OptionalChild("quote-source", p.source) + [];
    OptionalTextOfOptionalChild(e, head, "quote-source", p.source, []);
  }

  lemma PhotoChildren(p: Post)
    requires p.Photo?
    ensures ToElement(p).children == OptionalChild("photo-caption", p.caption) + UrlElements(p.urls)
  {
  }

  lemma PhotoUrlsOfToElement(p: Post)
    requires p.Photo? && Valid(p)
    ensures ParseUrls(ChildrenNamed(ToElement(p), "photo-url")) == p.urls
  {
    var head := OptionalChild("photo-caption", p.caption);
    var tail := UrlElements(p.urls);
    PhotoChildren(p);
    NamedSuffix(head, tail, "photo-url");
    ParseUrlsOfUrlElements(p.urls);
  }

  lemma PhotoCaptionOfToElement(p: Post)
    requires p.Photo?
    ensures OptionalText(ToElement(p), "photo-caption") == p.caption
  {
    var e := ToElement(p);
    var tail := UrlElements(p.urls);
    assert e.children == [] + OptionalChild("photo-caption", p.caption) + tail;
    OptionalTextOfOptionalChild(e, [], "photo-caption", p.caption, tail);
  }

  lemma RoundTripPhoto(p: Post)
    requires p.Photo? && Valid(p)
    ensures ParsePhoto(ToElement(p), p.base.timezone) == Success(p)
    ensures ParsePost(ToElement(p), p.base.timezone) == Success(p)
  {
    ParseBaseOfToElement(p);
    PhotoUrlsOfToElement(p);
    PhotoCaptionOfToElement(p);
  }

  lemma RoundTripLink(p: Post)
    requires p.Link?
    ensures ParseLink(ToElement(p), p.base.timezone) == Success(p)
    ensures ParsePost(ToElement(p), p.base.timezone) == Success(p)
  {
    ParseBaseOfToElement(p);
    var cs := ToElement(p).children;
    FirstNamedAt(cs, "link-text", 0);
    FirstNamedAt(cs, "link-url", 1);
    FirstNamedAt(cs, "link-description", 2);
  }

  lemma ConversationChildren(p: Post)
    requires p.Conversation?
    ensures ToElement(p).children == [Leaf("conversation-text", map[], p.text)] + LineElements(p.lines)
  {
  }

  lemma ConversationLinesOfToElement(p: Post)
    requires p.Conversation?
    ensures ParseLines(ChildrenNamed(ToElement(p), "conversation-line")) == p.lines
  {
    var head := [Leaf("conversation-text", map[], p.text)];
    var tail := LineElements(p.lines);
    ConversationChildren(p);
    NamedSuffix(head, tail, "conversation-line");
    ParseLinesOfLineElements(p.lines);
  }

  lemma ConversationTextOfToElement(p: Post)
    requires p.Conversation?
    ensures FirstChild(ToElement(p), "conversation-text") == Some(Leaf("conversation-text", map[], p.text))
  {
  }

  lemma RoundTripConversation(p: Post)
    requires p.Conversation?
    ensures ParseConversation(ToElement(p), p.base.timezone) == Success(p)
    ensures ParsePost(ToElement(p), p.base.timezone) == Success(p)
  {
    ParseBaseOfToElement(p);
    ConversationLinesOfToElement(p);
    ConversationTextOfToElement(p);
  }

  lemma RoundTripVideo(p: Post)
    requires p.Video?
    ensures ParseVideo(ToElement(p), p.base.timezone) == Success(p)
    ensures ParsePost(ToElement(p), p.base.timezone) == Success(p)
  {
    ParseBaseOfToElement(p);
    var cs := ToElement(p).children;
    FirstNamedAt(cs, "video-caption", 0);
    FirstNamedAt(cs, "video-source", 2);
    FirstNamedAt(cs, "video-player", 1);
  }

  /** Reading back what `to_xml` wrote gives the same post, with the same
      blog timezone. */
  lemma RoundTrip(p: Post)
    requires Valid(p)
    ensures ParsePost(ToElement(p), p.base.timezone) == Success(p)
  {
    match p
    case Regular(_, _, _) => RoundTripRegular(p);
    case Quote(_, _, _) => RoundTripQuote(p);
    case Photo(_, _, _) => RoundTripPhoto(p);
    case Link(_, _, _) => RoundTripLink(p);
    case Conversation(_, _, _) => RoundTripConversation(p);
    case Video(_, _, _, _) => RoundTripVideo(p);
  }

  /** Photo and Video derive title and body from the caption by one rule. */
  lemma PhotoVideoCaptionsAgree(photo: Post, video: Post)
    requires photo.Photo? && video.Video? && photo.caption == video.caption
    ensures CaptionTitle(photo) == CaptionTitle(video)
    ensures CaptionBody(photo) == CaptionBody(video)
  {
  }
}

=== FILE: ruby_int.dfy ===
/** Ruby's conversions between Integer and String as the library uses them:
    `String#to_i` (on attribute values such as `total`, `start` and
    `max-width`) and `Integer#to_s` (when REXML stores an Integer as an
    attribute value). */
module RubyInt {
  import opened Wrappers

  predicate IsDigit(c: char) {
    '0' <= c <= '9'
  }

  predicate AllDigits(s: string) {
    forall i :: 0 <= i < |s| ==> IsDigit(s[i])
  }

  function DigitValue(c: char): nat
    requires IsDigit(c)
  {
    (c as int) - ('0' as int)
  }

  function Digit(d: nat): (c: char)
    requires d < 10
    ensures IsDigit(c) && DigitValue(c) == d
  {
    (('0' as int) + d) as char
  }

  /** The characters C's isspace accepts, which `to_i` skips at the front. */
  predicate IsSpace(c: char) {
    c == ' ' || c == '\t' || c == '\n' || c == '\U{000B}' || c == '\U{000C}' || c == '\r'
  }

  function SkipSpace(s: string): (r: string)
    ensures |r| <= |s| && r == s[|s| - |r|..]
    ensures |r| == 0 || !IsSpace(r[0])
  {
    if |s| > 0 && IsSpace(s[0]) then SkipSpace(s[1..]) else s
  }

  /** The optional base-10 prefix `0d`/`0D` that Ruby accepts after the sign. */
  function StripDecimalPrefix(u: string): string {
    if |u| >= 2 && u[0] == '0' && (u[1] == 'd' || u[1] == 'D') then u[2..] else u
  }

  /** The digits of the leading run of `u`: a run starts with a digit, and a
      single underscore may separate two digits; anything else ends it. */
  function DigitRun(u: string): (ds: string)
    ensures AllDigits(ds)
    ensures |ds| <= |u|
  {
    if |u| == 0 || !IsDigit(u[0]) then []
    else if |u| >= 2 && u[1] == '_' then
      if |u| >= 3 && IsDigit(u[2]) then [u[0]] + DigitRun(u[2..]) else [u[0]]
    else [u[0]] + DigitRun(u[1..])
  }

  /** The value of a decimal digit string, most significant digit first. */
  function DigitsValue(ds: string): nat
    requires AllDigits(ds)
  {
    if |ds| == 0 then 0 else 10 * DigitsValue(ds[..|ds| - 1]) + DigitValue(ds[|ds| - 1])
  }

  function UnsignedValue(u: string): nat {
    DigitsValue(DigitRun(StripDecimalPrefix(u)))
  }

  /** `String#to_i`: never fails; text with no leading number gives 0. */
  function ToI(s: string): int {
    var t := SkipSpace(s);
    if |t| > 0 && t[0] == '-' then -(UnsignedValue(t[1..]) as int)
    else if |t| > 0 && t[0] == '+' then UnsignedValue(t[1..])
    else UnsignedValue(t)
  }

  /** `nil.to_i` is 0, so a missing attribute reads as 0. */
  function OptionToI(s: Option<string>): int {
    match s
    case None => 0
    case Some(v) => ToI(v)
  }

  /** Decimal digits of `n` without leading zeros. */
  function NatToS(n: nat): (s: string)
    ensures |s| > 0 && AllDigits(s)
  {
    if n < 10 then [Digit(n)] else NatToS(n / 10) + [Digit(n % 10)]
  }

  /** `Integer#to_s`. */
  function IntToS(n: int): (s: string)
    ensures |s| > 0
  {
    if n < 0 then "-" + NatToS(-n) else NatToS(n)
  }

  lemma {:induction false} NatToSValue(n: nat)
    ensures DigitsValue(NatToS(n)) == n
  {
    if n >= 10 {
      var s := NatToS(n);
      assert s[..|s| - 1] == NatToS(n / 10);
      NatToSValue(n / 10);
    }
  }

  lemma {:induction false} DigitRunOfDigits(ds: string)
    requires AllDigits(ds)
    ensures DigitRun(ds) == ds
  {
    if |ds| > 0 {
      assert !(|ds| >= 2 && ds[1] == '_');
      DigitRunOfDigits(ds[1..]);
    }
  }

  /** The canonical decimal text of a natural number reads back as that number. */
  lemma UnsignedValueOfNatToS(n: nat)
    ensures UnsignedValue(NatToS(n)) == n
  {
    var s := NatToS(n);
    assert StripDecimalPrefix(s) == s by {
      if |s| >= 2 { assert IsDigit(s[1]); }
    }
    DigitRunOfDigits(s);
    NatToSValue(n);
  }

  lemma ToIOfDigitStart(s: string)
    requires |s| > 0 && IsDigit(s[0])
    ensures ToI(s) == UnsignedValue(s)
  {
    assert SkipSpace(s) == s;
  }

  lemma ToIOfMinus(s: string)
    requires |s| > 0 && s[0] == '-'
    ensures ToI(s) == -(UnsignedValue(s[1..]) as int)
  {
  }

  /** `to_i` inverts `to_s`: an Integer written as an attribute value reads
      back unchanged. */
  lemma ToIOfIntToS(n: int)
    ensures ToI(IntToS(n)) == n
  {
    if n < 0 {
      var m: nat := -n;
      var t := NatToS(m);
      var s := "-" + t;
      assert IntToS(n) == s;
      assert s[1..] == t;
      ToIOfMinus(s);
      UnsignedValueOfNatToS(m);
    } else {
      var t := NatToS(n);
      assert IntToS(n) == t;
      assert IsDigit(t[0]);
      ToIOfDigitStart(t);
      UnsignedValueOfNatToS(n);
    }
  }
}

=== FILE: tumblelog.dfy ===
/** `Tumblelog`: the blog's own metadata. The timezone identifier is looked
    up in a timezone database, given here as the set of identifiers it
    knows; an identifier resolves to a zone whose name is that identifier. */
module Blog {
  import opened Wrappers
  import opened Errors
  import opened Xml

  datatype Tumblelog = Tumblelog(name: Option<string>, timezone: string, cname: Option<string>, title: Option<string>, description: Option<string>)

  /** `Tumblelog#initialize`: fails exactly when the `timezone` attribute is
      missing or unknown to the database. */
  function ParseTumblelog(e: Element, zones: set<string>): (r: Result<Tumblelog, Error>)
    ensures r.Success? <==> Attr(e, "timezone").Some? && Attr(e, "timezone").value in zones
    ensures r.Failure? ==> r.error == InvalidTimezone(Attr(e, "timezone"))
    ensures r.Success? ==> Some(r.value.timezone) == Attr(e, "timezone")
    ensures r.Success? ==>
      r.value.name == Attr(e, "name") && r.value.cname == Attr(e, "cname") &&
      r.value.title == Attr(e, "title") && r.value.description == e.text
  {
    var z := Attr(e, "timezone");
    if z.Some? && z.value in zones then
      Success(Tumblelog(Attr(e, "name"), z.value, Attr(e, "cname"), Attr(e, "title"), e.text))
    else
      Failure(InvalidTimezone(z))
  }

  /** `Tumblelog#to_xml`: the timezone is written by its name. */
  function ToElement(t: Tumblelog): (e: Element)
    ensures e.name == "tumblelog" && Attr(e, "timezone") == Some(t.timezone)
    ensures Attr(e, "name") == t.name && Attr(e, "cname") == t.cname && Attr(e, "title") == t.title
    ensures e.text == t.description
  {
    var attrs := SetAttr(map[], "name", t.name)["timezone" := t.timezone];
    var attrs := SetAttr(SetAttr(attrs, "cname", t.cname), "title", t.title);
    Element("tumblelog", attrs, t.description, [])
  }

  /** A written blog reads back unchanged when its zone is known. */
  lemma RoundTrip(t: Tumblelog, zones: set<string>)
    requires t.timezone in zones
    ensures ParseTumblelog(ToElement(t), zones) == Success(t)
  {
  }
}

=== FILE: wrappers.dfy ===
/** Option and Result, the failure-compatible wrappers the rest of the model
    uses in place of Ruby's nil and raised exceptions. */
module Wrappers {

  /** A value that may be absent: Ruby's nil is `None`. */
  datatype Option<+T> = None | Some(value: T)

  /** Either a computed value or the error the Ruby code would raise. */
  datatype Result<+T, +E> = Success(value: T) | Failure(error: E) {

    predicate IsFailure() {
      Failure?
    }

    function PropagateFailure<U>(): Result<U, E>
      requires Failure?
    {
      Failure(error)
    }

    function Extract(): T
      requires Success?
    {
      value
    }
  }
}

/** The ways the library's operations fail. Ruby raises these implicitly
    (a method called on nil, `nil.new`, a bad timezone identifier); here
    they are values. */
module Errors {
  import opened Wrappers

  datatype Error =
    /** `nil + String`: the post element has no `date` attribute. */
    | MissingDate
    /** `elt.elements[name].text` where no child element `name` exists. */
    | MissingElement(name: string)
    /** The `case` on a post's `type` attribute matched nothing, so `nil.new` failed. */
    | UnknownPostType(raw: Option<string>)
    /** The timezone database does not know the blog's `timezone` identifier. */
    | InvalidTimezone(raw: Option<string>)
    /** `caption.split` on a post whose caption is nil. */
    | NilCaption
    /** `Array#[]` given something that is not an Integer. */
    | IndexTypeError
}

=== FILE: xml.dfy ===
/** The slice of REXML the library touches, over an abstract element tree:
    attribute lookup and assignment, the first child with a given name
    (`elt.elements[name]`), and the children with a given name in document
    order (`elt.elements.each(name)`). */
module Xml {
  import opened Wrappers
  import opened Errors

  datatype Element = Element(name: string, attrs: map<string, string>, text: Option<string>, children: seq<Element>)

  /** `elt.attributes[key]`. */
  function Attr(e: Element, key: string): Option<string> {
    if key in e.attrs then Some(e.attrs[key]) else None
  }

  /** `elt.attributes[key] = value`: assigning nil removes the attribute. */
  function SetAttr(attrs: map<string, string>, key: string, value: Option<string>): (r: map<string, string>)
    ensures (key in r <==> value.Some?) && (value.Some? ==> r[key] == value.value)
    ensures forall k :: k != key ==> (k in r <==> k in attrs) && (k in r ==> r[k] == attrs[k])
  {
    match value
    case None => attrs - {key}
    case Some(v) => attrs[key := v]
  }

  /** An element with no children. */
  function Leaf(name: string, attrs: map<string, string>, text: Option<string>): Element {
    Element(name, attrs, text, [])
  }

  /** The elements of `es` called `name`, in order. */
  function Named(es: seq<Element>, name: string): (r: seq<Element>)
    ensures |r| <= |es|
    ensures forall i :: 0 <= i < |r| ==> r[i].name == name
  {
    if es == [] then [] else (if es[0].name == name then [es[0]] else []) + Named(es[1..], name)
  }

  /** The first element of `es` called `name`. */
  function FirstNamed(es: seq<Element>, name: string): Option<Element> {
    if es == [] then None else if es[0].name == name then Some(es[0]) else FirstNamed(es[1..], name)
  }

  /** `elt.elements.each(name)`. */
  function ChildrenNamed(e: Element, name: string): seq<Element> {
    Named(e.children, name)
  }

  /** `elt.elements[name]`. */
  function FirstChild(e: Element, name: string): Option<Element> {
    FirstNamed(e.children, name)
  }

  /** `elt.elements[name].text if elt.elements[name]`: absent when the child
      is absent or has no text. */
  function OptionalText(e: Element, name: string): Option<string> {
    match FirstChild(e, name)
    case None => None
    case Some(c) => c.text
  }

  /** `elt.elements[name].text`: fails when the child is absent. */
  function RequiredText(e: Element, name: string): (r: Result<Option<string>, Error>)
    ensures r.Failure? <==> FirstChild(e, name).None?
    ensures r.Failure? ==> r.error == MissingElement(name)
    ensures r.Success? ==> r.value == OptionalText(e, name)
  {
    match FirstChild(e, name)
    case None => Failure(MissingElement(name))
    case Some(c) => Success(c.text)
  }

  lemma {:induction false} NamedAppend(a: seq<Element>, b: seq<Element>, name: string)
    ensures Named(a + b, name) == Named(a, name) + Named(b, name)
  {
    if a == [] {
      assert a + b == b;
    } else {
      assert (a + b)[1..] == a[1..] + b;
      NamedAppend(a[1..], b, name);
    }
  }

  lemma {:induction false} NamedAll(es: seq<Element>, name: string)
    requires forall i :: 0 <= i < |es| ==> es[i].name == name
    ensures Named(es, name) == es
  {
    if es != [] {
      NamedAll(es[1..], name);
    }
  }

  lemma {:induction false} NamedNone(es: seq<Element>, name: string)
    requires forall i :: 0 <= i < |es| ==> es[i].name != name
    ensures Named(es, name) == []
    ensures FirstNamed(es, name) == None
  {
    if es != [] {
      NamedNone(es[1..], name);
    }
  }

  /** The first child called `name` is the one at `i` when no earlier child
      has that name. */
  lemma {:induction false} FirstNamedAt(es: seq<Element>, name: string, i: nat)
    requires i < |es| && es[i].name == name
    requires forall j :: 0 <= j < i ==> es[j].name != name
    ensures FirstNamed(es, name) == Some(es[i])
  {
    if i > 0 {
      FirstNamedAt(es[1..], name, i - 1);
    }
  }

  /** Children called `name` that all follow the others are exactly the
      children listed by that name. */
  lemma NamedSuffix(head: seq<Element>, tail: seq<Element>, name: string)
    requires forall i :: 0 <= i < |head| ==> head[i].name != name
    requires forall i :: 0 <= i < |tail| ==> tail[i].name == name
    ensures Named(head + tail, name) == tail
  {
    NamedAppend(head, tail, name);
    NamedNone(head, name);
    NamedAll(tail, name);
  }
}
